=== FILE: README.md ===
# Challenge pool, payments, rooms, reservations and game logs — a Dafny model

This project models the request handlers of a small game back end. Each handler
decides an outcome and changes an in-memory store. The model covers these handlers:

- **Challenges** (`challenge.dfy`). A player stakes exactly 20.01 (2001 cents) to join a
  challenge. A player may join at most once every 60 seconds. The stake goes into one
  shared pool. A winning draw gives the challenge the whole pool, including its own stake,
  and empties the pool. The results listing returns the ten newest challenges and the pool
  balance.
- **Payment processors** (`processor.dfy`). Four simulated processors (credit card, bank
  transfer, third party, blockchain) are picked by method tag. Their transaction ids are
  `CC_CARD_<n>_<ts>`, `BT_BANK_<n>_<ts>`, `TP_3RDPARTY_<n>_<ts>` and `BC_<32 hex chars>_<ts>`.
- **Payments** (`payment.dfy`). A payment request is validated. A `pending` record is
  written, the processor is called, and the record ends as `success` with the transaction
  id or as `failed` with the error text. This file also models the standalone
  per-method helper and the lookup by id.
- **Rooms** (`room.dfy`). A registry of rooms with unique names. A new room starts
  `available`. Updates change only the name and description. Rooms are deleted by id.
- **Reservations** (`reservation.dfy`). A fixed order of checks, then a clash rule for the
  same room and date, then the booking is stored. Listings filter by room and date and
  stop at a limit.
- **Game logs** (`gamelog.dfy`). Entries are checked against seven known action kinds.
  Listings combine all given filters, put the newest entry first and stop at a limit.

Support modules: `results.dfy` (option, result and the error kinds), `decimal.dfy` (Go's
`%d` formatting and `strconv.Atoi`) and `queries.dfy` (the store's `WHERE`,
`ORDER BY … DESC` and `LIMIT`).

Every handler is a pure function from the store before the request to a reply and the
store after it. Things the handlers get from outside are parameters:

- the random draws: the win flag, and the processor `Draw` with its failure roll, token,
  hash picks and timestamp;
- the clock (`now`, in nanoseconds);
- the player registry (a set of ids);
- the date and time readers (`Layouts`);
- whether the store refuses a write (the `…Fault` / `storeFails` parameters).

Money is in integer cents and times are in integer nanoseconds.

Two behaviours of the code that the model keeps as they are:

- The payment record is created inside the same transaction as its final save. If that
  save fails, the transaction rolls back, so no `pending` record is left behind.
- The cooldown check runs outside the pool transaction, and the pool has no row lock. The
  model runs each request as one atomic step, so this race cannot show up in it.

## Model

| member | source | states |
|---|---|---|
| Decimal.NatToString | internal/services/payment_processor.go:30-32 | the `%d` text of a token number is non-empty, all decimal digits, with no leading zero |
| Decimal.IntToString | internal/services/payment_processor.go:27 | the `%d` text of a timestamp starts with `-` exactly when it is negative and never contains `_`, so it cannot be confused with an id separator |
| Decimal.ParseInt | internal/services/reservation_service.go:37-44 | `strconv.Atoi`: an accepted text is an optional sign followed by at least one digit, it reads as exactly that signed digit value, and that value lies in the 64-bit range (so a lone sign or an out-of-range number is refused); conversely every digit string, `+` digit string or `-` digit string whose value fits in 64 bits is accepted with that value (positive, positive, negated) |
| Decimal.LeadingZerosIgnored | internal/services/reservation_service.go:37-44 | `strconv.Atoi` reads `007`, `-007` and `+007` as it reads `7`, `-7` and `+7` |
| Decimal.PlusSignIgnored | internal/services/reservation_service.go:37-44 | `strconv.Atoi` reads `+5` as it reads `5` |
| Decimal.ParseIntOfIntToString | internal/services/log_service.go:29 | reading back a number's `%d` text with `Atoi` gives the same number |
| Queries.Select | internal/services/reservation_service.go:49-55 | a `WHERE` keeps exactly the rows that satisfy the filter, without adding any row |
| Queries.SortDesc | internal/services/log_service.go:55 | `ORDER BY … DESC` gives a permutation of the rows, sorted newest first |
| Queries.Limit | internal/services/reservation_service.go:57-58 | `LIMIT n` keeps a prefix of length min(n, rows); a negative limit keeps every row |
| Queries.Newest | internal/services/log_service.go:54-55 | the result is sorted newest first, drawn from the input rows, and holds exactly min(limit, rows) of them (every row for a negative limit); every row left out is no newer than any row returned |
| Challenges.LatestChallengeTime | internal/services/challenge_service.go:53-56 | the player's latest challenge time is absent iff the player has no challenge; otherwise it belongs to one of the player's challenges and is at least every other one's |
| Challenges.CooldownGate | internal/services/challenge_service.go:58-65 | allowed iff every challenge of the player is at least 60 s old (so always allowed without one); a denial's wait is 60 s minus the latest challenge's age, so it is positive, and at most 60 s when the clock has not gone backwards |
| Challenges.JoinChallenge | internal/services/challenge_service.go:28-123 | checks in order: the stake and player id, the player, the cooldown, the store's writes; every rejection leaves the store unchanged; an accepted join adds one challenge (end time = start + 30 s) and the pool gains the stake minus the payout; a loss records the stake, a win records the pool after the deposit and leaves the pool at 0 |
| Challenges.GetChallengeResults | internal/services/challenge_service.go:125-144 | exactly min(10, challenges) challenges, newest first, none older than a challenge left out; the pool reads 0 when its row is missing |
| Challenges.PoolStaysNonNegative | internal/services/challenge_service.go:70-113 | a join never makes a non-negative pool negative |
| Challenges.NoSecondJoinWithinCooldown | internal/services/challenge_service.go:52-65 | after an accepted join, the same player's join within the next 60 s is refused with a cooldown error and changes nothing |
| Challenges.PoolConservation | internal/services/challenge_service.go:70-113 | over any run of joins, final pool = initial pool + one stake per accepted join − all winner payouts, and every accepted join left one challenge row |
| Challenges.LoseThenWin | internal/services/challenge_service.go:75-102 | from an empty pool, a losing join leaves 20.01 in the pool; a winning join a minute later takes 40.02 and empties the pool |
| Processors.CreatePaymentProcessor | internal/services/payment_processor.go:97-110 | returns a processor exactly for the four method tags, nothing otherwise, and the processor serves the tag it was chosen for |
| Processors.BlockchainHash | internal/services/payment_processor.go:87-94 | a blockchain hash is 32 characters, each from `abcdef0123456789` |
| Processors.Process | internal/services/payment_processor.go:18-85 | a failed call returns an empty id and a non-empty error; a successful one returns no error and an id that starts with the variant's prefix and `_` |
| Processors.TransactionIdRoundTrip | internal/services/payment_processor.go:18-94 | every successful id reads back to the variant that made it, its token (`CARD_`/`BANK_`/`3RDPARTY_` with a number below 10000, or the 32-character hash) and its timestamp |
| Processors.SelectorRoundTrip | internal/services/payment_processor.go:97-110 | the selector maps each variant's tag back to that variant |
| Processors.ProcessIgnoresAmount | internal/services/payment_processor.go:18-85 | whether a call fails, and the id it returns, do not depend on the amount |
| Processors.PrefixesDistinct | internal/services/payment_processor.go:18-85 | ids from different variants have different three-character prefixes |
| Payments.ValidateRequest | internal/services/payment_service.go:22-27 | the request passes binding iff the player id is non-zero, the amount is positive and a method is given |
| Payments.ProcessPayment | internal/services/payment_service.go:60-154 | checks in order: the input, the player, the method; every rejection or refused write leaves no record; otherwise exactly one new record holds the request's player, amount, method and details, and ends `success` with the processor's id or `failed` with exactly the processor's error text and an empty id |
| Payments.GetPayment | internal/services/payment_service.go:156-168 | finds the record with that id, or answers not found iff there is none |
| Payments.ProcessPaymentKeepsLedger | internal/services/payment_service.go:88-144 | no existing record ever changes, so a terminal state is never left; every stored record is `success` or `failed`, never `pending` or `cancelled` |
| Payments.GetAfterProcess | internal/services/payment_service.go:156-168 | a processed payment can be read back by the id in its reply, as `success` when settled and `failed` when declined |
| Payments.ForcedCardFailure | internal/services/payment_service.go:109-128 | a credit-card payment whose processor fails is stored `failed`, with the processor's message and an empty transaction id |
| Payments.ProcessPaymentByMethod | internal/services/payment_service.go:30-58 | the failure roll is checked before the method, so a failed roll gives "transaction declined" for any method; otherwise an unknown method is "unsupported", and a known one gets an id ending in `<method>_<nanos>` |
| Payments.ByMethodAgreesWithSelector | internal/services/payment_service.go:42-57 | the helper accepts exactly the methods the selector accepts, and uses the prefix CC/BT/TP/BC of the matching processor |
| Rooms.CreateRoom | internal/services/room_service.go:59-93 | a missing name or a name already taken is refused and leaves the registry unchanged; otherwise one room is added with the given name and description and status `available` |
| Rooms.GetRoom | internal/services/room_service.go:105-117 | finds the room with that id, or answers not found iff there is none |
| Rooms.UpdateRoom | internal/services/room_service.go:131-163 | an absent id is not found and changes nothing; a successful update changes only that room's name and description, keeping its id and status |
| Rooms.DeleteRoom | internal/services/room_service.go:175-188 | removes exactly the room with that id, if present, and leaves every other room unchanged |
| Rooms.ListRooms | internal/services/room_service.go:36-46 | lists every room of the registry and nothing else |
| Rooms.GetAfterChange | internal/services/room_service.go:105-117 | after a create or update, reading the room by id gives the stored room; after a delete, reading it is not found |
| Rooms.OperationsKeepValid | internal/models/room.go:7-14 | create, update and delete keep room names unique and rows keyed by their own id |
| Reservations.ParseSlot | internal/services/reservation_service.go:82-105 | the date is read first, then the start time, then the end time, and the first unreadable one decides the error; when all three are readable the slot is read, holding exactly those values |
| Reservations.CreateReservation | internal/services/reservation_service.go:72-160 | checks in order: required fields, date and times, room, player, clash; every rejection leaves the book unchanged; otherwise exactly one booking with the request's room, player, date and times is appended, and it clashes with no earlier booking |
| Reservations.ListReservations | internal/services/reservation_service.go:30-69 | a limit that is not an integer is refused; every row returned is stored and matches the room and date filters; the result is a prefix of the matching rows of length min(limit, matching rows) for a non-negative limit (10 by default); when the limit does not bind, every matching row is returned |
| Reservations.DefaultLimitReads | internal/services/reservation_service.go:34-37 | the default limit text reads as 10 |
| Reservations.OverlapsCharacterised | internal/services/reservation_service.go:127-130 | the clash rule is closed-interval intersection, except that s = end together with e = start is no clash |
| Reservations.BackToBackClashes | internal/services/reservation_service.go:128 | a booking that ends exactly when the requested one starts clashes with it when the existing booking starts before the requested end (the handler never checks start < end, so without that condition there may be no clash) |
| Reservations.OverlapsSymmetric | internal/services/reservation_service.go:128 | the clash rule gives the same answer from either booking's side |
| Reservations.OtherRoomOrDateNeverClashes | internal/services/reservation_service.go:128 | bookings for another room or another date never clash |
| Reservations.CreateKeepsNoDoubleBooking | internal/services/reservation_service.go:125-154 | if no two stored bookings clash, that still holds after any create |
| GameLogs.CreateLog | internal/services/log_service.go:70-132 | checks in order: player id non-zero, action present, action one of the seven kinds, player exists; every rejection leaves the journal unchanged; otherwise one entry is appended with the given fields and the posted creation time, or the store's clock when none is posted |
| GameLogs.GetLogs | internal/services/log_service.go:21-67 | a limit that is not an integer is refused; every row returned matches all given filters together; rows come newest first, and a non-negative limit (50 by default) returns exactly min(limit, matching rows) of them; a matching row left out is never newer than one returned; all matching rows come back when the limit does not bind |
| GameLogs.DefaultLimitReads | internal/services/log_service.go:26-29 | the default limit text reads as 50 |
| GameLogs.CreateLogKeepsWellFormed | internal/services/log_service.go:80-129 | every stored entry has a non-zero player id and one of the seven actions |

## Left out

- HTTP routing, status codes and response bodies are left out. Each distinct response is one `Error` kind or one reply value.
- Malformed JSON bodies are left out; only the `binding` rules on the decoded fields are modelled.
- The store itself is left out. It becomes maps and sequences, and a refused write is a fault parameter. A write refused by a foreign key is only an unspecified refusal (`storeFails`).
- Store read errors are left out. This includes the listing errors that answer "Failed to fetch …".
- Connection retry, migration and pool bootstrap (`internal/database/db.go`), configuration, route wiring and `main` are left out.
- The player and level services are left out; players appear only as a set of existing ids.
- `tx.Commit()`: the source ignores its result. The model treats every commit as succeeding, because a failed commit would be reported as success with nothing stored.
- Concurrency is left out; each request is one atomic step. The missing row lock on the pool and the check-then-act cooldown race are therefore not modelled.
- The win probability (1%), the failure rates (10%, 5%, 8%, 15%) and the simulated delays are left out. Outcomes come in as parameters.
- Floating-point money is left out; amounts are integer cents.
- The cooldown wait is in nanoseconds, not fractional seconds.
- The source reads the clock several times in one join: the cooldown test, the wait, the start and end times, and the row's creation time. The model uses one `now` for all of them.
- The source passes over a latest challenge whose creation time is Go's zero time. Every modelled challenge has a creation time set when it was created, so this case is left out.
- `time.Parse` with the layouts `2006-01-02` and `15:04` is a parameter (`Layouts`), not a definition of Go's parser.
- The query-string filters (`room_id`, `date`, `player_id`, `start_time`, `end_time`) are typed optional values. The store's casting of their text, and its failure on text it cannot cast, are left out.
- `ListReservations` has no `ORDER BY`. The model returns matching rows in insertion order, one of the orders the store may use.
- `LIMIT` follows the store layer's rule: a negative limit adds no LIMIT clause and a zero limit returns no rows.
- Row ids come from a counter that moves only when a row is stored. The database sequence may skip values after a rollback.
- A client-supplied `id` in a posted game log is left out. A posted `created_at` is modelled.
- GameLogs.CreateLog: a nested `player` object in the posted body is not modelled. The body is decoded straight into the stored log type, which carries a `player` association. When that object is non-zero, the store first upserts it into the players table and then copies its id into `player_id`. So the stored entry's player can differ from the `player_id` that passed the existence check, and the players table can gain a row. The model's entry always keeps the request's `player_id` and leaves the players untouched.
- Preloading of the `Player` and `Room` associations into responses is left out.
- Non-numeric id path parameters are left out: the model takes ids as natural numbers only. The handlers pass the path text straight to the store's `First`/`Delete`, which treats a text that is not a number as a raw SQL condition (so `id>0` would read the first row); that behaviour is not modelled.

=== FILE: challenge.dfy ===
/** The challenge pool: a fixed stake joins a challenge, the stake is deposited
    into the single shared pool, and a winning draw pays the whole pool out. */
module Challenges {
  import opened Results
  import Queries

  const NanosPerSecond: int := 1_000_000_000
  /** The fixed stake, 20.01, in cents. */
  const StakeCents: int := 2001
  /** A challenge ends this long after it starts. */
  const ChallengeDuration: int := 30 * NanosPerSecond
  /** Minimum time between two challenges of one player. */
  const CooldownDuration: int := 60 * NanosPerSecond
  /** How many challenges the results listing returns. */
  const ResultsLimit: int := 10

  /** A challenge row; `amount` is the stake, or the whole payout when the challenge won.
      Times are nanoseconds on the store's clock. */
  datatype Challenge = Challenge(
    id: nat,
    playerId: nat,
    amount: int,
    isWinner: bool,
    startTime: int,
    endTime: int,
    createdAt: int)

  /** The store as the challenge handlers see it: the pool row (absent until first
      written), the challenge rows in insertion order, and the next row id. */
  datatype Ledger = Ledger(pool: Option<int>, challenges: seq<Challenge>, nextId: nat)

  datatype JoinRequest = JoinRequest(playerId: nat, amount: int)

  /** What an accepted join answers: the challenge, its amount and the pool after it. */
  datatype JoinReceipt = JoinReceipt(challengeId: nat, isWinner: bool, amount: int, poolAmount: int)

  /** Which write of the join transaction the store refuses, if any. */
  datatype JoinFault = NoFault | PoolSaveFails | ChallengeCreateFails | PoolDrainFails | ChallengeUpdateFails

  datatype Joined = Joined(reply: Result<JoinReceipt>, after: Ledger)

  datatype Gate = Allowed | Denied(wait: int)

  datatype ChallengeResults = ChallengeResults(challenges: seq<Challenge>, poolAmount: int)

  /** The pool balance; a missing pool row reads as zero. */
  function PoolBalance(l: Ledger): int {
    l.pool.GetOr(0)
  }

  function CreatedAt(c: Challenge): int {
    c.createdAt
  }

  /** What an accepted join took out of the pool. */
  function Payout(rc: JoinReceipt): int {
    if rc.isWinner then rc.amount else 0
  }

  /** Creation time of the player's most recent challenge (`ORDER BY created_at DESC`, first row). */
  function LatestChallengeTime(cs: seq<Challenge>, player: nat): (r: Option<int>)
    ensures r.None? <==> forall i :: 0 <= i < |cs| ==> cs[i].playerId != player
    ensures r.Some? ==>
      exists i :: 0 <= i < |cs| && cs[i].playerId == player && cs[i].createdAt == r.value
    ensures r.Some? ==>
      forall i :: 0 <= i < |cs| && cs[i].playerId == player ==> cs[i].createdAt <= r.value
  {
    if |cs| == 0 then None
    else
      var last := cs[|cs| - 1];
      var earlier := LatestChallengeTime(cs[..|cs| - 1], player);
      assert forall i :: 0 <= i < |cs| - 1 ==> cs[..|cs| - 1][i] == cs[i];
      if last.playerId != player then earlier
      else if earlier.Some? && earlier.value >= last.createdAt then earlier
      else Some(last.createdAt)
  }

  /** The cooldown gate: a player whose latest challenge is younger than the cooldown
      is told how long to wait, measured from that latest challenge. */
  function CooldownGate(cs: seq<Challenge>, player: nat, now: int): (g: Gate)
    ensures g.Allowed? <==>
      forall i :: 0 <= i < |cs| && cs[i].playerId == player ==> now - cs[i].createdAt >= CooldownDuration
    ensures g.Denied? ==> 0 < g.wait
    ensures g.Denied? ==>
      exists i :: 0 <= i < |cs| && cs[i].playerId == player
        && g.wait == CooldownDuration - (now - cs[i].createdAt)
        && forall j :: 0 <= j < |cs| && cs[j].playerId == player ==> cs[j].createdAt <= cs[i].createdAt
    ensures g.Denied? && (forall i :: 0 <= i < |cs| && cs[i].playerId == player ==> cs[i].createdAt <= now) ==>
      g.wait <= CooldownDuration
  {
    match LatestChallengeTime(cs, player)
    case None => Allowed
    case Some(t) =>
      if now - t < CooldownDuration then Denied(CooldownDuration - (now - t)) else Allowed
  }

  /** Whether the store accepts every write the join performs: the two drain writes
      only happen on a win. */
  predicate WritesSucceed(fault: JoinFault, win: bool) {
    fault == NoFault || (!win && (fault == PoolDrainFails || fault == ChallengeUpdateFails))
  }

  /** Joining a challenge. The request must carry a non-zero player id and exactly the
      stake; the player must exist and be out of cooldown. Then, in one transaction, the
      stake goes into the pool (a missing pool row counts as zero), a challenge row is
      added, and on a win (`win` is the draw) the challenge takes the whole pool and the
      pool drops to zero. Any refused write rolls the transaction back. */
  function JoinChallenge(l: Ledger, players: set<nat>, req: JoinRequest, now: int, win: bool, fault: JoinFault): (j: Joined)
    ensures req.playerId == 0 || req.amount != StakeCents ==>
      j.reply.Err? && j.reply.error.InvalidInput? && j.after == l
    ensures req.playerId != 0 && req.amount == StakeCents && req.playerId !in players ==>
      j.reply == Err(PlayerNotFound) && j.after == l
    ensures req.playerId != 0 && req.amount == StakeCents && req.playerId in players ==>
      match CooldownGate(l.challenges, req.playerId, now)
      case Denied(w) => j.reply == Err(CooldownActive(w)) && j.after == l
      case Allowed => (j.reply.Ok? <==> WritesSucceed(fault, win))
    ensures j.reply.Err? ==> j.after == l
    ensures j.reply.Ok? ==>
      var rc := j.reply.value;
      var n := |l.challenges|;
      && |j.after.challenges| == n + 1
      && j.after.challenges[..n] == l.challenges
      && j.after.nextId > l.nextId
      && j.after.pool.Some?
      && rc.isWinner == win
      && rc.poolAmount == PoolBalance(j.after)
      && PoolBalance(j.after) == PoolBalance(l) + StakeCents - Payout(rc)
      && (!win ==> rc.amount == StakeCents && PoolBalance(j.after) == PoolBalance(l) + StakeCents)
      && (win ==> rc.amount == PoolBalance(l) + StakeCents && PoolBalance(j.after) == 0)
      && var c := j.after.challenges[n];
      && c.id == rc.challengeId == l.nextId
      && c.playerId == req.playerId
      && c.amount == rc.amount
      && c.isWinner == win
      && c.startTime == now == c.createdAt
      && c.endTime == c.startTime + ChallengeDuration
  {
    if req.playerId == 0 then Joined(Err(InvalidInput("player_id")), l)
    else if req.amount != StakeCents then Joined(Err(InvalidInput("amount")), l)
    else if req.playerId !in players then Joined(Err(PlayerNotFound), l)
    else match CooldownGate(l.challenges, req.playerId, now)
      case Denied(w) => Joined(Err(CooldownActive(w)), l)
      case Allowed =>
        var deposited := PoolBalance(l) + StakeCents;
        if fault == PoolSaveFails then Joined(Err(StoreFailure("pool")), l)
        else if fault == ChallengeCreateFails then Joined(Err(StoreFailure("challenge")), l)
        else
          var c := Challenge(l.nextId, req.playerId, StakeCents, win, now, now + ChallengeDuration, now);
          if !win then
            Joined(Ok(JoinReceipt(c.id, false, c.amount, deposited)),
                   Ledger(Some(deposited), l.challenges + [c], l.nextId + 1))
          else if fault == PoolDrainFails then Joined(Err(StoreFailure("pool")), l)
          else if fault == ChallengeUpdateFails then Joined(Err(StoreFailure("challenge")), l)
          else
            var settled := c.(amount := deposited);
            Joined(Ok(JoinReceipt(c.id, true, settled.amount, 0)),
                   Ledger(Some(0), l.challenges + [settled], l.nextId + 1))
  }

  /** The results listing: the ten most recent challenges, newest first, and the pool
      balance (zero when the pool row is missing). */
  function GetChallengeResults(l: Ledger): (r: ChallengeResults)
    ensures |r.challenges| <= ResultsLimit
    ensures |l.challenges| > ResultsLimit ==> |r.challenges| == ResultsLimit
    ensures Queries.SortedDesc(r.challenges, CreatedAt)
    ensures multiset(r.challenges) <= multiset(l.challenges)
    ensures |l.challenges| <= ResultsLimit ==> multiset(r.challenges) == multiset(l.challenges)
    ensures forall x, y :: x in r.challenges && y in multiset(l.challenges) - multiset(r.challenges) ==>
      y.createdAt <= x.createdAt
    ensures l.pool.None? ==> r.poolAmount == 0
    ensures l.pool.Some? ==> r.poolAmount == l.pool.value
  {
    ChallengeResults(Queries.Newest(l.challenges, CreatedAt, ResultsLimit), PoolBalance(l))
  }

  /** A join never makes a non-negative pool negative. */
  lemma PoolStaysNonNegative(l: Ledger, players: set<nat>, req: JoinRequest, now: int, win: bool, fault: JoinFault)
    requires PoolBalance(l) >= 0
    ensures PoolBalance(JoinChallenge(l, players, req, now, win, fault).after) >= 0
  {
  }

  /** After an accepted join, the same player's next join inside the cooldown is refused. */
  lemma NoSecondJoinWithinCooldown(
    l: Ledger, players: set<nat>, req: JoinRequest, now: int, win: bool, fault: JoinFault,
    later: int, win2: bool, fault2: JoinFault)
    requires JoinChallenge(l, players, req, now, win, fault).reply.Ok?
    requires now <= later < now + CooldownDuration
    ensures
      var l1 := JoinChallenge(l, players, req, now, win, fault).after;
      var j2 := JoinChallenge(l1, players, req, later, win2, fault2);
      j2.reply.Err? && j2.reply.error.CooldownActive? && j2.after == l1
  {
  }

  /** One request in a run of joins: its time, its draw and the store's behaviour. */
  datatype Attempt = Attempt(req: JoinRequest, now: int, win: bool, fault: JoinFault)

  /** The store after a run of joins, applied one after another. */
  function Replay(l: Ledger, players: set<nat>, attempts: seq<Attempt>): Ledger
    decreases |attempts|
  {
    if |attempts| == 0 then l
    else
      var a := attempts[0];
      Replay(JoinChallenge(l, players, a.req, a.now, a.win, a.fault).after, players, attempts[1..])
  }

  /** The receipts of the accepted joins of a run, in order. */
  function Receipts(l: Ledger, players: set<nat>, attempts: seq<Attempt>): seq<JoinReceipt>
    decreases |attempts|
  {
    if |attempts| == 0 then []
    else
      var a := attempts[0];
      var j := JoinChallenge(l, players, a.req, a.now, a.win, a.fault);
      (if j.reply.Ok? then [j.reply.value] else []) + Receipts(j.after, players, attempts[1..])
  }

  function TotalPayout(rs: seq<JoinReceipt>): int {
    if |rs| == 0 then 0 else Payout(rs[0]) + TotalPayout(rs[1..])
  }

  /** No deposit is lost: after any run of joins the pool holds what it held, plus one
      stake per accepted join, minus everything paid to winners; and every accepted
      join left exactly one challenge row. */
  lemma {:induction false} PoolConservation(l: Ledger, players: set<nat>, attempts: seq<Attempt>)
    ensures
      var rs := Receipts(l, players, attempts);
      PoolBalance(Replay(l, players, attempts)) == PoolBalance(l) + StakeCents * |rs| - TotalPayout(rs)
    ensures |Replay(l, players, attempts).challenges| == |l.challenges| + |Receipts(l, players, attempts)|
    decreases |attempts|
  {
    if |attempts| > 0 {
      var a := attempts[0];
      var j := JoinChallenge(l, players, a.req, a.now, a.win, a.fault);
      PoolConservation(j.after, players, attempts[1..]);
      var head := if j.reply.Ok? then [j.reply.value] else [];
      var tail := Receipts(j.after, players, attempts[1..]);
      TotalPayoutAppend(head, tail);
    }
  }

  lemma {:induction false} TotalPayoutAppend(a: seq<JoinReceipt>, b: seq<JoinReceipt>)
    ensures TotalPayout(a + b) == TotalPayout(a) + TotalPayout(b)
    decreases |a|
  {
    if |a| > 0 {
      assert (a + b)[0] == a[0];
      assert (a + b)[1..] == a[1..] + b;
      TotalPayoutAppend(a[1..], b);
    } else {
      assert a + b == b;
    }
  }

  /** The worked example: from an empty pool a losing join leaves 20.01 in the pool;
      the same player's winning join a minute later takes 40.02 and empties the pool. */
  lemma LoseThenWin(player: nat)
    requires player != 0
    ensures
      var l0 := Ledger(Some(0), [], 1);
      var j1 := JoinChallenge(l0, {player}, JoinRequest(player, StakeCents), 0, false, NoFault);
      var j2 := JoinChallenge(j1.after, {player}, JoinRequest(player, StakeCents), CooldownDuration, true, NoFault);
      && j1.reply == Ok(JoinReceipt(1, false, 2001, 2001))
      && j2.reply == Ok(JoinReceipt(2, true, 4002, 0))
      && PoolBalance(j2.after) == 0
  {
  }
}

=== FILE: decimal.dfy ===
/** Decimal text of integers: the `%d` verb of Go's fmt (used to build
    transaction ids) and strconv.Atoi (used to read `limit` query parameters). */
module Decimal {
  import opened Results

  /** Bounds of Go's 64-bit `int`, the range strconv.Atoi accepts. */
  const Int64Min: int := -0x8000_0000_0000_0000
  const Int64Max: int := 0x7FFF_FFFF_FFFF_FFFF

  type Int64 = i: int | Int64Min <= i <= Int64Max

  predicate IsDigit(c: char) {
    '0' <= c <= '9'
  }

  predicate AllDigits(s: string) {
    forall i :: 0 <= i < |s| ==> IsDigit(s[i])
  }

  function DigitChar(d: nat): (c: char)
    requires d < 10
    ensures IsDigit(c)
    ensures c as int - '0' as int == d
  {
    (d + '0' as int) as char
  }

  function DigitValue(c: char): (d: nat)
    requires IsDigit(c)
    ensures d < 10
  {
    c as int - '0' as int
  }

  /** Value of a string of decimal digits, most significant first; the empty string is 0. */
  function DigitsValue(s: string): nat
    requires AllDigits(s)
  {
    if |s| == 0 then 0 else DigitsValue(s[..|s| - 1]) * 10 + DigitValue(s[|s| - 1])
  }

  /** `%d` of a non-negative number: digits only, no leading zero. */
  function NatToString(n: nat): (s: string)
    ensures |s| >= 1
    ensures AllDigits(s)
    ensures s[0] == '0' ==> n == 0
  {
    if n < 10 then [DigitChar(n)] else NatToString(n / 10) + [DigitChar(n % 10)]
  }

  /** `%d` of any integer: a minus sign before the digits of a negative number. */
  function IntToString(i: int): (s: string)
    ensures |s| >= 1
    ensures i < 0 <==> s[0] == '-'
    ensures forall k :: 0 <= k < |s| ==> s[k] != '_'
  {
    if i < 0 then "-" + NatToString(-i) else NatToString(i)
  }

  /** strconv.Atoi: an optional `+` or `-`, then at least one decimal digit,
      and a value inside the 64-bit range; anything else is a syntax or range error. */
  function ParseInt(s: string): (r: Option<int>)
    ensures r.Some? ==> Int64Min <= r.value <= Int64Max
    ensures r.Some? ==> |s| >= 1 && (IsDigit(s[0]) || s[0] == '+' || s[0] == '-')
    ensures r.Some? ==> AllDigits(s[1..])
    ensures r.Some? ==>
      && |s| >= 1
      && var b := if s[0] == '+' || s[0] == '-' then s[1..] else s;
         && |b| > 0 && AllDigits(b)
         && r.value == (if s[0] == '-' then -(DigitsValue(b) as int) else DigitsValue(b) as int)
    ensures |s| > 0 && AllDigits(s) && DigitsValue(s) <= Int64Max ==> r == Some(DigitsValue(s) as int)
    ensures |s| > 1 && s[0] == '+' && AllDigits(s[1..]) && DigitsValue(s[1..]) <= Int64Max ==>
      r == Some(DigitsValue(s[1..]) as int)
    ensures |s| > 1 && s[0] == '-' && AllDigits(s[1..]) && -(DigitsValue(s[1..]) as int) >= Int64Min ==>
      r == Some(-(DigitsValue(s[1..]) as int))
  {
    var signed := |s| > 0 && (s[0] == '+' || s[0] == '-');
    var body := if signed then s[1..] else s;
    if |body| == 0 || !AllDigits(body) then None
    else
      var magnitude: int := DigitsValue(body);
      var v := if signed && s[0] == '-' then -magnitude else magnitude;
      if Int64Min <= v <= Int64Max then Some(v) else None
  }

  lemma {:induction false} DigitsValueOfNatToString(n: nat)
    ensures DigitsValue(NatToString(n)) == n
  {
    if n >= 10 {
      var prefix := NatToString(n / 10);
      var s := NatToString(n);
      assert s[..|s| - 1] == prefix;
      DigitsValueOfNatToString(n / 10);
    }
  }

  /** Reading back what `%d` wrote gives the number again. */
  lemma ParseIntOfIntToString(i: Int64)
    ensures ParseInt(IntToString(i)) == Some(i as int)
  {
    var s := IntToString(i);
    if i < 0 {
      assert s[1..] == NatToString(-(i as int));
      DigitsValueOfNatToString(-(i as int));
    } else {
      DigitsValueOfNatToString(i);
    }
  }

  lemma {:induction false} LeadingZeroDigits(t: string)
    requires AllDigits(t)
    ensures AllDigits("0" + t)
    ensures DigitsValue("0" + t) == DigitsValue(t)
  {
    var z := "0" + t;
    assert AllDigits(z) by {
      forall i | 0 <= i < |z| ensures IsDigit(z[i]) {
        if i > 0 { assert z[i] == t[i - 1]; }
      }
    }
    if |t| > 0 {
      assert z[..|z| - 1] == "0" + t[..|t| - 1];
      assert z[|z| - 1] == t[|t| - 1];
      LeadingZeroDigits(t[..|t| - 1]);
    }
  }

  /** Atoi ignores leading zeros, with or without a sign: `007` and `-007` read as 7 and -7. */
  lemma LeadingZerosIgnored(t: string)
    requires |t| > 0 && AllDigits(t)
    ensures ParseInt("0" + t) == ParseInt(t)
    ensures ParseInt("-0" + t) == ParseInt("-" + t)
    ensures ParseInt("+0" + t) == ParseInt("+" + t)
  {
    LeadingZeroDigits(t);
    assert ("-0" + t)[1..] == "0" + t;
    assert ("-" + t)[1..] == t;
    assert ("+0" + t)[1..] == "0" + t;
    assert ("+" + t)[1..] == t;
  }

  /** Atoi reads a leading `+` as no sign at all: `+5` reads as 5. */
  lemma PlusSignIgnored(t: string)
    requires |t| > 0 && AllDigits(t)
    ensures ParseInt("+" + t) == ParseInt(t)
  {
  }
}

=== FILE: gamelog.dfy ===
/** The game log: entries are checked (player id, action present, action one of the
    seven known kinds, player exists) before being stored; listings filter
    conjunctively, put the newest first and stop at a limit. */
module GameLogs {
  import opened Results
  import Decimal
  import Queries

  /** The seven action kinds, with their stored texts. */
  const ActionRegister: string := "\U{8A3B}\U{518A}"
  const ActionLogin: string := "\U{767B}\U{5165}"
  const ActionLogout: string := "\U{767B}\U{51FA}"
  const ActionEnterRoom: string := "\U{9032}\U{5165}\U{623F}\U{9593}"
  const ActionLeaveRoom: string := "\U{9000}\U{51FA}\U{623F}\U{9593}"
  const ActionJoinChallenge: string := "\U{53C3}\U{52A0}\U{6311}\U{6230}"
  const ActionChallengeEnd: string := "\U{6311}\U{6230}\U{7D50}\U{679C}"

  const ValidActions: set<string> :=
    {ActionRegister, ActionLogin, ActionLogout, ActionEnterRoom, ActionLeaveRoom, ActionJoinChallenge, ActionChallengeEnd}

  /** The limit a listing uses when none is given. */
  const DefaultLimit: string := "50"

  /** A log row; `createdAt` is nanoseconds on the store's clock. */
  datatype GameLog = GameLog(id: nat, playerId: nat, action: string, details: string, createdAt: int)

  /** The log rows in insertion order, and the id the next row gets. */
  datatype Journal = Journal(entries: seq<GameLog>, nextId: nat)

  /** A log as posted: a creation time sent with it is kept, otherwise the store stamps it. */
  datatype LogRequest = LogRequest(playerId: nat, action: string, details: string, createdAt: Option<int>)

  /** The listing's filters; the action filter is off when empty. */
  datatype LogFilter = LogFilter(playerId: Option<nat>, action: string, start: Option<int>, end: Option<int>)

  datatype Logged = Logged(reply: Result<GameLog>, after: Journal)

  function CreatedAt(g: GameLog): int {
    g.createdAt
  }

  /** Every stored entry names a player and a known action. */
  predicate WellFormed(j: Journal) {
    forall i :: 0 <= i < |j.entries| ==> j.entries[i].playerId != 0 && j.entries[i].action in ValidActions
  }

  /** Storing a log entry, after the checks in their order. */
  function CreateLog(j: Journal, players: set<nat>, req: LogRequest, now: int, storeFails: bool): (g: Logged)
    ensures req.playerId == 0 ==> g.reply == Err(PlayerIdRequired) && g.after == j
    ensures req.playerId != 0 && req.action == "" ==> g.reply == Err(ActionRequired) && g.after == j
    ensures req.playerId != 0 && req.action != "" && req.action !in ValidActions ==>
      g.reply == Err(InvalidAction) && g.after == j
    ensures req.playerId != 0 && req.action in ValidActions && req.playerId !in players ==>
      g.reply == Err(PlayerNotFound) && g.after == j
    ensures g.reply.Err? ==> g.after == j
    ensures g.reply.Ok? <==>
      req.playerId != 0 && req.action in ValidActions && req.playerId in players && !storeFails
    ensures g.reply.Ok? ==>
      var e := g.reply.value;
      && g.after == Journal(j.entries + [e], j.nextId + 1)
      && e.id == j.nextId && e.playerId == req.playerId && e.action == req.action && e.details == req.details
      && (req.createdAt.Some? ==> e.createdAt == req.createdAt.value)
      && (req.createdAt.None? ==> e.createdAt == now)
  {
    if req.playerId == 0 then Logged(Err(PlayerIdRequired), j)
    else if req.action == "" then Logged(Err(ActionRequired), j)
    else if req.action !in ValidActions then Logged(Err(InvalidAction), j)
    else if req.playerId !in players then Logged(Err(PlayerNotFound), j)
    else if storeFails then Logged(Err(StoreFailure("create log")), j)
    else
      var e := GameLog(j.nextId, req.playerId, req.action, req.details, req.createdAt.GetOr(now));
      Logged(Ok(e), Journal(j.entries + [e], j.nextId + 1))
  }

  /** The listing's filters, each applied only when given, all of them together. */
  predicate Matches(g: GameLog, f: LogFilter) {
    && (f.playerId.None? || g.playerId == f.playerId.value)
    && (f.action == "" || g.action == f.action)
    && (f.start.None? || g.createdAt >= f.start.value)
    && (f.end.None? || g.createdAt <= f.end.value)
  }

  function MatchingLogs(j: Journal, f: LogFilter): seq<GameLog> {
    Queries.Select(j.entries, g => Matches(g, f))
  }

  lemma DefaultLimitReads()
    ensures Decimal.ParseInt(DefaultLimit) == Some(50)
  {
    assert DefaultLimit == Decimal.IntToString(50);
    Decimal.ParseIntOfIntToString(50);
  }

  /** Listing logs: the limit text (fifty when absent) must read as an integer; the
      matching rows come newest first, up to the limit, and no matching row left out
      is newer than one returned. */
  function GetLogs(j: Journal, f: LogFilter, limit: Option<string>): (r: Result<seq<GameLog>>)
    ensures r.Err? <==> Decimal.ParseInt(limit.GetOr(DefaultLimit)).None?
    ensures r.Err? ==> r.error == InvalidLimit
    ensures limit.None? ==> r.Ok? && |r.value| <= 50
    ensures r.Ok? ==> forall x :: x in r.value ==> x in j.entries && Matches(x, f)
    ensures r.Ok? ==> Queries.SortedDesc(r.value, CreatedAt)
    ensures r.Ok? && Decimal.ParseInt(limit.GetOr(DefaultLimit)).value >= 0 ==>
      |r.value| <= Decimal.ParseInt(limit.GetOr(DefaultLimit)).value
    ensures (r.Ok? &&
      var n := Decimal.ParseInt(limit.GetOr(DefaultLimit)).value;
      0 <= n < |MatchingLogs(j, f)|) ==>
      |r.value| == Decimal.ParseInt(limit.GetOr(DefaultLimit)).value
    ensures r.Ok? ==>
      forall x, y :: x in r.value && y in multiset(MatchingLogs(j, f)) - multiset(r.value) ==>
        y.createdAt <= x.createdAt
    ensures (r.Ok? &&
      var n := Decimal.ParseInt(limit.GetOr(DefaultLimit)).value;
      n < 0 || |MatchingLogs(j, f)| <= n) ==>
      multiset(r.value) == multiset(MatchingLogs(j, f))
  {
    DefaultLimitReads();
    match Decimal.ParseInt(limit.GetOr(DefaultLimit))
    case None => Err(InvalidLimit)
    case Some(n) =>
      var matching := MatchingLogs(j, f);
      var newest := Queries.Newest(matching, CreatedAt, n);
      NewestAreMatching(j, f, newest);
      Ok(newest)
  }

  lemma NewestAreMatching(j: Journal, f: LogFilter, newest: seq<GameLog>)
    requires multiset(newest) <= multiset(MatchingLogs(j, f))
    ensures forall x :: x in newest ==> x in j.entries && Matches(x, f)
  {
    forall x | x in newest
      ensures x in j.entries && Matches(x, f)
    {
      assert x in multiset(newest);
      assert x in MatchingLogs(j, f);
    }
  }

  /** Storing logs keeps every entry well formed. */
  lemma CreateLogKeepsWellFormed(j: Journal, players: set<nat>, req: LogRequest, now: int, storeFails: bool)
    requires WellFormed(j)
    ensures WellFormed(CreateLog(j, players, req, now, storeFails).after)
  {
  }
}

=== FILE: payment.dfy ===
/** The payment state machine: a request is validated, a pending record is written,
    the selected processor is called, and the record is finalised as `success` with
    the processor's transaction id or as `failed` with its error text. Creation and
    finalisation share one transaction, so a refused write leaves no record at all. */
module Payments {
  import opened Results
  import Decimal
  import Processors

  datatype PaymentStatus = Pending | Success | Failed | Cancelled

  datatype Payment = Payment(
    id: nat,
    playerId: nat,
    amount: int,
    methodTag: string,
    status: PaymentStatus,
    transactionId: string,
    details: string,
    errorMessage: string)

  /** The payment rows by id, and the id the next row gets. */
  datatype PaymentLedger = PaymentLedger(records: map<nat, Payment>, nextId: nat)

  /** A payment request; `amount` is in cents. */
  datatype PaymentRequest = PaymentRequest(playerId: nat, amount: int, methodTag: string, details: string)

  /** Which write of the payment transaction the store refuses, if any. */
  datatype PaymentFault = NoFault | RecordCreateFails | FinalSaveFails

  /** The two answers of a processed payment: settled, or declined by the processor
      (the failed record is kept and its id reported). */
  datatype PaymentReply =
    | Settled(paymentId: nat, transactionId: string)
    | Declined(paymentId: nat, message: string)

  datatype Submitted = Submitted(reply: Result<PaymentReply>, after: PaymentLedger)

  /** A row in a terminal state, carrying exactly the field that state calls for. */
  predicate Finalised(p: Payment) {
    || (p.status == Success && p.transactionId != "" && p.errorMessage == "")
    || (p.status == Failed && p.transactionId == "" && p.errorMessage != "")
  }

  /** The ledger invariant: rows are keyed by their own id, below the next id, and final. */
  predicate Valid(l: PaymentLedger) {
    forall id :: id in l.records ==> l.records[id].id == id && id < l.nextId && Finalised(l.records[id])
  }

  /** `binding:"required"` on player id and method, `required,gt=0` on the amount. */
  function ValidateRequest(req: PaymentRequest): (e: Option<Error>)
    ensures e.None? <==> req.playerId != 0 && req.amount > 0 && req.methodTag != ""
    ensures e.Some? ==> e.value.InvalidInput?
  {
    if req.playerId == 0 then Some(InvalidInput("player_id"))
    else if req.amount <= 0 then Some(InvalidInput("amount"))
    else if req.methodTag == "" then Some(InvalidInput("method"))
    else None
  }

  /** Processing a payment, in the order the handler checks: the request fields, the
      player, the method; then the pending record, the processor call (`d` is its
      draw) and the final save. */
  function ProcessPayment(
    l: PaymentLedger, players: set<nat>, req: PaymentRequest, d: Processors.Draw, fault: PaymentFault): (s: Submitted)
    ensures ValidateRequest(req).Some? ==> s.reply == Err(ValidateRequest(req).value) && s.after == l
    ensures ValidateRequest(req).None? && req.playerId !in players ==>
      s.reply == Err(PlayerNotFound) && s.after == l
    ensures ValidateRequest(req).None? && req.playerId in players
            && Processors.CreatePaymentProcessor(req.methodTag).None? ==>
      s.reply == Err(InvalidPaymentMethod) && s.after == l
    ensures s.reply.Err? ==> s.after == l
    ensures s.reply.Ok? <==>
      ValidateRequest(req).None? && req.playerId in players
      && Processors.CreatePaymentProcessor(req.methodTag).Some? && fault.NoFault?
    ensures s.reply.Ok? ==>
      var id := l.nextId;
      && s.after.nextId == id + 1
      && id in s.after.records
      && s.after.records == l.records[id := s.after.records[id]]
      && var p := s.after.records[id];
      && p.id == id
      && p.playerId == req.playerId && p.amount == req.amount
      && p.methodTag == req.methodTag && p.details == req.details
      && Finalised(p)
      && (s.reply.value.Settled? <==> !d.fails)
      && (s.reply.value.Settled? ==>
            s.reply.value == Settled(id, p.transactionId) && p.status == Success
            && p.transactionId
               == Processors.Process(Processors.CreatePaymentProcessor(req.methodTag).value, req.amount, d).transactionId)
      && (s.reply.value.Declined? ==>
            s.reply.value == Declined(id, p.errorMessage) && p.status == Failed
            && p.transactionId == ""
            && Processors.Process(Processors.CreatePaymentProcessor(req.methodTag).value, req.amount, d).err
               == Some(p.errorMessage))
  {
    if ValidateRequest(req).Some? then Submitted(Err(ValidateRequest(req).value), l)
    else if req.playerId !in players then Submitted(Err(PlayerNotFound), l)
    else match Processors.CreatePaymentProcessor(req.methodTag)
      case None => Submitted(Err(InvalidPaymentMethod), l)
      case Some(processor) =>
        var pending := Payment(l.nextId, req.playerId, req.amount, req.methodTag, Pending, "", req.details, "");
        if fault == RecordCreateFails then Submitted(Err(StoreFailure("create payment")), l)
        else
          var outcome := Processors.Process(processor, req.amount, d);
          var final := match outcome.err
            case Some(message) => pending.(status := Failed, errorMessage := message)
            case None => pending.(status := Success, transactionId := outcome.transactionId);
          if fault == FinalSaveFails then Submitted(Err(StoreFailure("update payment")), l)
          else
            var reply :=
              if outcome.err.Some? then Declined(pending.id, final.errorMessage)
              else Settled(pending.id, final.transactionId);
            Submitted(Ok(reply), PaymentLedger(l.records[pending.id := final], l.nextId + 1))
  }

  /** Looking a payment up by id. */
  function GetPayment(l: PaymentLedger, id: nat): (r: Result<Payment>)
    ensures r.Ok? <==> id in l.records
    ensures r.Ok? ==> r.value == l.records[id]
    ensures r.Err? ==> r.error == NotFound
  {
    if id in l.records then Ok(l.records[id]) else Err(NotFound)
  }

  /** Payment processing keeps the ledger valid and never touches an existing row:
      no row leaves its terminal state, and `pending` or `cancelled` is never stored. */
  lemma ProcessPaymentKeepsLedger(
    l: PaymentLedger, players: set<nat>, req: PaymentRequest, d: Processors.Draw, fault: PaymentFault)
    requires Valid(l)
    ensures var after := ProcessPayment(l, players, req, d, fault).after;
      && Valid(after)
      && (forall id :: id in l.records ==> id in after.records && after.records[id] == l.records[id])
      && (forall id :: id in after.records ==> after.records[id].status in {Success, Failed})
  {
  }

  /** A credit-card payment whose processor call fails is stored as `failed` with the
      processor's message and no transaction id. */
  lemma ForcedCardFailure(l: PaymentLedger, player: nat, d: Processors.Draw)
    requires player != 0 && d.fails
    ensures
      var s := ProcessPayment(l, {player}, PaymentRequest(player, 10050, Processors.CreditCardTag, "Test payment"), d, NoFault);
      && s.reply == Ok(Declined(l.nextId, "credit card payment failed: insufficient funds"))
      && s.after.records[l.nextId].status == Failed
      && s.after.records[l.nextId].transactionId == ""
  {
  }

  /** The standalone per-method processing helper: a failure roll first, then a
      prefix chosen by the method over `<method>_<nanos>`. */
  function ProcessPaymentByMethod(tag: string, fails: bool, nanos: Decimal.Int64): (r: Processors.Processed)
    ensures fails ==> r == Processors.Processed("", Some("payment failed: transaction declined"))
    ensures !fails && tag !in {Processors.CreditCardTag, Processors.BankTransferTag, Processors.ThirdPartyTag, Processors.BlockchainTag} ==>
      r == Processors.Processed("", Some("unsupported payment method"))
    ensures r.err.None? ==> |r.transactionId| >= 3 && r.transactionId[3..] == tag + "_" + Decimal.IntToString(nanos)
  {
    if fails then Processors.Processed("", Some("payment failed: transaction declined"))
    else
      var transactionId := tag + "_" + Decimal.IntToString(nanos);
      if tag == Processors.CreditCardTag then Processors.Processed("CC_" + transactionId, None)
      else if tag == Processors.BankTransferTag then Processors.Processed("BT_" + transactionId, None)
      else if tag == Processors.ThirdPartyTag then Processors.Processed("TP_" + transactionId, None)
      else if tag == Processors.BlockchainTag then Processors.Processed("BC_" + transactionId, None)
      else Processors.Processed("", Some("unsupported payment method"))
  }

  /** The helper accepts exactly the methods the selector accepts, and gives each
      the same prefix as the selected processor's own ids. */
  lemma ByMethodAgreesWithSelector(tag: string, nanos: Decimal.Int64)
    ensures
      var r := ProcessPaymentByMethod(tag, false, nanos);
      var p := Processors.CreatePaymentProcessor(tag);
      && (r.err.None? <==> p.Some?)
      && (p.Some? ==> Processors.IdPrefix(p.value) + "_" <= r.transactionId)
  {
  }

  /** A processed payment can be read back by the id its reply names, in its final state. */
  lemma GetAfterProcess(
    l: PaymentLedger, players: set<nat>, req: PaymentRequest, d: Processors.Draw, fault: PaymentFault)
    ensures var s := ProcessPayment(l, players, req, d, fault);
      s.reply.Ok? ==>
        var id := s.reply.value.paymentId;
        && GetPayment(s.after, id).Ok?
        && GetPayment(s.after, id).value.status == (if s.reply.value.Settled? then Success else Failed)
  {
  }
}

=== FILE: processor.dfy ===
/** The four simulated payment processors, the selector that picks one from a
    method tag, and the shape of the transaction ids they hand out. The random
    draws and the clock reading of one call are passed in as a `Draw`. */
module Processors {
  import opened Results
  import Decimal

  const CreditCardTag: string := "credit_card"
  const BankTransferTag: string := "bank_transfer"
  const ThirdPartyTag: string := "third_party"
  const BlockchainTag: string := "blockchain"

  /** The characters a blockchain hash is drawn from. */
  const HashCharset: string := "abcdef0123456789"
  const HashLength: nat := 32
  /** Card, bank and third-party tokens are `rand.Intn(10000)`. */
  const TokenBound: nat := 10000

  datatype Processor = CreditCardProcessor | BankTransferProcessor | ThirdPartyProcessor | BlockchainProcessor

  /** One `rand.Intn(TokenBound)`. */
  type Token = n: nat | n < 10000
  /** One `rand.Intn(len(HashCharset))`. */
  type HashPick = n: nat | n < 16
  /** The picks of one blockchain hash. */
  type HashPicks = s: seq<HashPick> | |s| == 32 witness seq(32, _ => 0)

  /** What one call to `Process` draws: whether the failure roll hit, the token,
      the hash picks, and `time.Now().UnixNano()`. */
  datatype Draw = Draw(fails: bool, token: Token, picks: HashPicks, nanos: Decimal.Int64)

  /** Go's `(string, error)` pair: an id, and an error message when the call failed. */
  datatype Processed = Processed(transactionId: string, err: Option<string>)

  /** The factory: a processor for exactly the four supported tags, none otherwise. */
  function CreatePaymentProcessor(tag: string): (p: Option<Processor>)
    ensures p.Some? <==> tag in {CreditCardTag, BankTransferTag, ThirdPartyTag, BlockchainTag}
    ensures p.Some? ==> MethodTag(p.value) == tag
  {
    if tag == CreditCardTag then Some(CreditCardProcessor)
    else if tag == BankTransferTag then Some(BankTransferProcessor)
    else if tag == ThirdPartyTag then Some(ThirdPartyProcessor)
    else if tag == BlockchainTag then Some(BlockchainProcessor)
    else None
  }

  /** The method tag a processor serves. */
  function MethodTag(p: Processor): string {
    match p
    case CreditCardProcessor => CreditCardTag
    case BankTransferProcessor => BankTransferTag
    case ThirdPartyProcessor => ThirdPartyTag
    case BlockchainProcessor => BlockchainTag
  }

  /** The two-letter prefix of a processor's transaction ids. */
  function IdPrefix(p: Processor): string {
    match p
    case CreditCardProcessor => "CC"
    case BankTransferProcessor => "BT"
    case ThirdPartyProcessor => "TP"
    case BlockchainProcessor => "BC"
  }

  function FailureMessage(p: Processor): string {
    match p
    case CreditCardProcessor => "credit card payment failed: insufficient funds"
    case BankTransferProcessor => "bank transfer failed: invalid bank account"
    case ThirdPartyProcessor => "third-party payment failed: service unavailable"
    case BlockchainProcessor => "blockchain payment failed: network congestion"
  }

  /** The word before the token number in card, bank and third-party ids. */
  function TokenWord(p: Processor): string
    requires p != BlockchainProcessor
  {
    match p
    case CreditCardProcessor => "CARD"
    case BankTransferProcessor => "BANK"
    case ThirdPartyProcessor => "3RDPARTY"
  }

  /** The per-variant token: `CARD_<n>`, `BANK_<n>`, `3RDPARTY_<n>`, or the 32-character hash. */
  function TokenText(p: Processor, d: Draw): string {
    if p == BlockchainProcessor then BlockchainHash(d.picks)
    else TokenWord(p) + "_" + Decimal.NatToString(d.token)
  }

  /** `generateBlockchainHash`: each pick selects one character of the charset. */
  function BlockchainHash(picks: HashPicks): (h: string)
    ensures |h| == HashLength
    ensures forall i :: 0 <= i < |h| ==> h[i] in HashCharset
  {
    seq(32, i requires 0 <= i < 32 => HashCharset[picks[i]])
  }

  /** `Process(amount)` of one variant. The amount plays no part. */
  function Process(p: Processor, amount: int, d: Draw): (r: Processed)
    ensures d.fails ==> r.transactionId == "" && r.err.Some? && |r.err.value| > 0
    ensures !d.fails ==> r.err.None? && |r.transactionId| > 3
    ensures !d.fails ==> r.transactionId[..3] == IdPrefix(p) + "_"
  {
    if d.fails then Processed("", Some(FailureMessage(p)))
    else Processed(IdPrefix(p) + "_" + TokenText(p, d) + "_" + Decimal.IntToString(d.nanos), None)
  }

  /** The parts a transaction id is made of. */
  datatype IdParts = IdParts(processor: Processor, token: string, nanos: int)

  /** Splits `a + "_" + b` at its first underscore. */
  function SplitAtUnderscore(s: string): (r: Option<(string, string)>)
    ensures r.Some? ==> s == r.value.0 + "_" + r.value.1
    ensures r.Some? ==> forall i :: 0 <= i < |r.value.0| ==> r.value.0[i] != '_'
  {
    if |s| == 0 then None
    else if s[0] == '_' then Some(([], s[1..]))
    else match SplitAtUnderscore(s[1..])
      case None => None
      case Some((a, b)) => Some(([s[0]] + a, b))
  }

  /** The variant named by an id's two-letter prefix and the underscore after it. */
  function ParsePrefix(id: string): (p: Option<Processor>)
    ensures p.Some? ==> IdPrefix(p.value) + "_" <= id
  {
    if |id| < 3 || id[2] != '_' then None
    else if id[..2] == "CC" then Some(CreditCardProcessor)
    else if id[..2] == "BT" then Some(BankTransferProcessor)
    else if id[..2] == "TP" then Some(ThirdPartyProcessor)
    else if id[..2] == "BC" then Some(BlockchainProcessor)
    else None
  }

  /** `<hash>_<nanos>` with a 32-character hash over the charset. */
  function ParseHashBody(rest: string): (r: Option<(string, int)>)
    ensures r.Some? ==> |r.value.0| == HashLength
    ensures r.Some? ==> forall i :: 0 <= i < |r.value.0| ==> r.value.0[i] in HashCharset
  {
    if |rest| < HashLength + 1 || rest[HashLength] != '_' then None
    else
      var hash := rest[..HashLength];
      if !(forall i :: 0 <= i < |hash| ==> hash[i] in HashCharset) then None
      else match Decimal.ParseInt(rest[HashLength + 1..])
        case None => None
        case Some(t) => Some((hash, t))
  }

  /** `<word>_<n>_<nanos>` with a decimal token number below the bound. */
  function ParseTokenBody(word: string, rest: string): (r: Option<(string, int)>)
  {
    if !(word + "_" <= rest) then None
    else match SplitAtUnderscore(rest[|word| + 1..])
      case None => None
      case Some((digits, stamp)) =>
        if |digits| == 0 || !Decimal.AllDigits(digits) || Decimal.DigitsValue(digits) >= TokenBound then None
        else match Decimal.ParseInt(stamp)
          case None => None
          case Some(t) => Some((word + "_" + digits, t))
  }

  /** Reads a transaction id back into its variant, token and timestamp: the prefix
      names the variant, and the token is a number below the bound or a 32-character hash. */
  function ParseTransactionId(id: string): (r: Option<IdParts>)
    ensures r.Some? ==> IdPrefix(r.value.processor) + "_" <= id
  {
    match ParsePrefix(id)
    case None => None
    case Some(p) =>
      var body :=
        if p == BlockchainProcessor then ParseHashBody(id[3..]) else ParseTokenBody(TokenWord(p), id[3..]);
      match body
      case None => None
      case Some((token, t)) => Some(IdParts(p, token, t))
  }

  lemma {:induction false} SplitAfterPlainText(a: string, b: string)
    requires forall i :: 0 <= i < |a| ==> a[i] != '_'
    ensures SplitAtUnderscore(a + "_" + b) == Some((a, b))
    decreases |a|
  {
    var s := a + "_" + b;
    if |a| > 0 {
      assert s[0] == a[0];
      assert s[1..] == a[1..] + "_" + b;
      SplitAfterPlainText(a[1..], b);
      assert [a[0]] + a[1..] == a;
    } else {
      assert s[0] == '_' && s[1..] == b;
    }
  }

  lemma HashBodyRoundTrip(picks: HashPicks, nanos: Decimal.Int64)
    ensures ParseHashBody(BlockchainHash(picks) + "_" + Decimal.IntToString(nanos))
      == Some((BlockchainHash(picks), nanos as int))
  {
    var hash := BlockchainHash(picks);
    var stamp := Decimal.IntToString(nanos);
    var rest := hash + "_" + stamp;
    assert rest[..HashLength] == hash;
    assert rest[HashLength + 1..] == stamp;
    Decimal.ParseIntOfIntToString(nanos);
  }

  lemma TokenBodyRoundTrip(word: string, token: Token, nanos: Decimal.Int64)
    ensures ParseTokenBody(word, word + "_" + Decimal.NatToString(token) + "_" + Decimal.IntToString(nanos))
      == Some((word + "_" + Decimal.NatToString(token), nanos as int))
  {
    var digits := Decimal.NatToString(token);
    var stamp := Decimal.IntToString(nanos);
    var rest := word + "_" + digits + "_" + stamp;
    assert rest[..|word| + 1] == word + "_";
    assert rest[|word| + 1..] == digits + "_" + stamp;
    SplitAfterPlainText(digits, stamp);
    Decimal.DigitsValueOfNatToString(token);
    Decimal.ParseIntOfIntToString(nanos);
  }

  lemma PrefixRoundTrip(p: Processor, body: string)
    ensures ParsePrefix(IdPrefix(p) + "_" + body) == Some(p)
    ensures (IdPrefix(p) + "_" + body)[3..] == body
  {
    var id := IdPrefix(p) + "_" + body;
    assert id[..2] == IdPrefix(p);
    assert id[2] == '_';
  }

  /** Every successful id reads back to the variant that made it, the token it drew
      (a number below 10000, or a 32-character hash over the charset) and the timestamp.
      So the prefix identifies the variant. */
  lemma TransactionIdRoundTrip(p: Processor, amount: int, d: Draw)
    requires !d.fails
    ensures ParseTransactionId(Process(p, amount, d).transactionId) == Some(IdParts(p, TokenText(p, d), d.nanos))
  {
    var stamp := Decimal.IntToString(d.nanos);
    var body := TokenText(p, d) + "_" + stamp;
    assert Process(p, amount, d).transactionId == IdPrefix(p) + "_" + body;
    PrefixRoundTrip(p, body);
    if p == BlockchainProcessor {
      HashBodyRoundTrip(d.picks, d.nanos);
    } else {
      assert body == TokenWord(p) + "_" + Decimal.NatToString(d.token) + "_" + stamp;
      TokenBodyRoundTrip(TokenWord(p), d.token, d.nanos);
    }
  }

  /** The selector and the tags agree both ways. */
  lemma SelectorRoundTrip(p: Processor)
    ensures CreatePaymentProcessor(MethodTag(p)) == Some(p)
  {
  }

  /** Whether a call succeeds, and the id it returns, do not depend on the amount. */
  lemma ProcessIgnoresAmount(p: Processor, a1: int, a2: int, d: Draw)
    ensures Process(p, a1, d) == Process(p, a2, d)
  {
  }

  /** Distinct variants give ids with distinct prefixes. */
  lemma PrefixesDistinct(p: Processor, q: Processor, d: Draw, e: Draw, a: int, b: int)
    requires p != q && !d.fails && !e.fails
    ensures Process(p, a, d).transactionId[..3] != Process(q, b, e).transactionId[..3]
  {
    assert (IdPrefix(p) + "_")[..2] == IdPrefix(p);
    assert (IdPrefix(q) + "_")[..2] == IdPrefix(q);
  }
}

=== FILE: queries.dfy ===
/** `WHERE`, `ORDER BY <key> DESC` and `LIMIT n` as the store applies them to a query's rows. */
module Queries {

  /** `WHERE p`: the rows satisfying `p`, in store order. */
  function Select<T>(s: seq<T>, p: T -> bool): (r: seq<T>)
    ensures forall x :: x in r ==> x in s && p(x)
    ensures forall x :: x in s && p(x) ==> x in r
    ensures multiset(r) <= multiset(s)
  {
    if |s| == 0 then []
    else
      var rest := Select(s[1..], p);
      assert s == [s[0]] + s[1..];
      assert forall x :: x in s[1..] ==> x in s;
      if p(s[0]) then [s[0]] + rest else rest
  }

  predicate SortedDesc<T>(s: seq<T>, key: T -> int) {
    forall i, j :: 0 <= i < j < |s| ==> key(s[i]) >= key(s[j])
  }

  function Insert<T>(x: T, s: seq<T>, key: T -> int): (r: seq<T>)
    requires SortedDesc(s, key)
    ensures SortedDesc(r, key)
    ensures multiset(r) == multiset(s) + multiset{x}
  {
    if |s| == 0 then [x]
    else if key(x) >= key(s[0]) then [x] + s
    else
      var rest := Insert(x, s[1..], key);
      assert s == [s[0]] + s[1..];
      assert forall j :: 0 <= j < |rest| ==> key(rest[j]) <= key(s[0]) by {
        forall j | 0 <= j < |rest|
          ensures key(rest[j]) <= key(s[0])
        {
          assert rest[j] in multiset(rest);
          if rest[j] != x {
            assert rest[j] in multiset(s[1..]);
          }
        }
      }
      [s[0]] + rest
  }

  /** The rows in newest-first order: a permutation of the input, sorted on the key. */
  function SortDesc<T>(s: seq<T>, key: T -> int): (r: seq<T>)
    ensures SortedDesc(r, key)
    ensures multiset(r) == multiset(s)
  {
    if |s| == 0 then []
    else
      assert s == [s[0]] + s[1..];
      Insert(s[0], SortDesc(s[1..], key), key)
  }

  /** `LIMIT limit`: the store writes no LIMIT clause for a negative limit. */
  function Limit<T>(s: seq<T>, limit: int): (r: seq<T>)
    ensures r <= s
    ensures limit < 0 ==> r == s
    ensures 0 <= limit ==> |r| == if limit < |s| then limit else |s|
  {
    if limit < 0 || |s| <= limit then s else s[..limit]
  }

  /** `ORDER BY key DESC LIMIT limit`. */
  function Newest<T>(s: seq<T>, key: T -> int, limit: int): (r: seq<T>)
    ensures SortedDesc(r, key)
    ensures multiset(r) <= multiset(s)
    ensures 0 <= limit ==> |r| <= limit
    ensures 0 <= limit < |s| ==> |r| == limit
    ensures limit < 0 || |s| <= limit ==> multiset(r) == multiset(s)
    ensures forall x, y :: x in r && y in multiset(s) - multiset(r) ==> key(y) <= key(x)
  {
    var sorted := SortDesc(s, key);
    assert |sorted| == |multiset(sorted)| == |s|;
    var r := Limit(sorted, limit);
    NewestPrefix(sorted, |r|, key);
    r
  }

  /** In a sorted sequence, every row past a cut is no newer than any row before it. */
  lemma NewestPrefix<T>(t: seq<T>, k: nat, key: T -> int)
    requires SortedDesc(t, key)
    requires k <= |t|
    ensures multiset(t[..k]) <= multiset(t)
    ensures multiset(t) - multiset(t[..k]) == multiset(t[k..])
    ensures forall x, y :: x in t[..k] && y in multiset(t) - multiset(t[..k]) ==> key(y) <= key(x)
  {
    SplitMultiset(t, k);
    forall x, y | x in t[..k] && y in multiset(t) - multiset(t[..k])
      ensures key(y) <= key(x)
    {
      CutOrder(t, k, key, x, y);
    }
  }

  lemma SplitMultiset<T>(t: seq<T>, k: nat)
    requires k <= |t|
    ensures multiset(t) == multiset(t[..k]) + multiset(t[k..])
  {
    assert t == t[..k] + t[k..];
  }

  lemma CutOrder<T>(t: seq<T>, k: nat, key: T -> int, x: T, y: T)
    requires SortedDesc(t, key)
    requires k <= |t|
    requires x in t[..k] && y in multiset(t[k..])
    ensures key(y) <= key(x)
  {
  }
}

=== FILE: reservation.dfy ===
/** Room reservations: a request is checked field by field, then for a clash with an
    existing booking of the same room on the same date; listings filter by room and
    date and stop at a limit. */
module Reservations {
  import opened Results
  import Decimal
  import Queries
  import Rooms

  /** The limit a listing uses when none is given. */
  const DefaultLimit: string := "10"

  datatype Date = Date(year: int, month: int, day: int)

  /** Readers for the `2006-01-02` date layout and the `15:04` time layout; a time
      reads as minutes since midnight. */
  datatype Layouts = Layouts(date: string -> Option<Date>, clock: string -> Option<int>)

  /** A booking; `startTime` and `endTime` are minutes since midnight. */
  datatype Reservation = Reservation(id: nat, roomId: nat, playerId: nat, date: Date, startTime: int, endTime: int)

  /** The reservation rows in insertion order, and the id the next row gets. */
  datatype Book = Book(reservations: seq<Reservation>, nextId: nat)

  datatype ReservationRequest = ReservationRequest(
    roomId: nat, playerId: nat, date: string, startTime: string, endTime: string)

  /** The date and times of a request once read. */
  datatype Slot = Slot(date: Date, startTime: int, endTime: int)

  datatype Booked = Booked(reply: Result<Reservation>, after: Book)

  /** The clash rule between an existing booking [s, e] and a requested [start, end]. */
  predicate Overlaps(s: int, e: int, start: int, end: int) {
    (s <= end && e > start) || (s < end && e >= start)
  }

  predicate ConflictsWith(r: Reservation, roomId: nat, slot: Slot) {
    r.roomId == roomId && r.date == slot.date && Overlaps(r.startTime, r.endTime, slot.startTime, slot.endTime)
  }

  predicate HasConflict(b: Book, roomId: nat, slot: Slot) {
    exists i :: 0 <= i < |b.reservations| && ConflictsWith(b.reservations[i], roomId, slot)
  }

  /** No two bookings of the book clash under the clash rule. */
  predicate NoDoubleBooking(b: Book) {
    forall i, j :: 0 <= i < j < |b.reservations| ==>
      var r := b.reservations[j];
      !ConflictsWith(b.reservations[i], r.roomId, Slot(r.date, r.startTime, r.endTime))
  }

  /** `binding:"required"` on every field of the request. */
  predicate FieldsPresent(req: ReservationRequest) {
    req.roomId != 0 && req.playerId != 0 && req.date != "" && req.startTime != "" && req.endTime != ""
  }

  /** Reading the date, then the start time, then the end time. */
  function ParseSlot(layouts: Layouts, req: ReservationRequest): (r: Result<Slot>)
    ensures layouts.date(req.date).None? ==> r == Err(InvalidDate)
    ensures layouts.date(req.date).Some? && layouts.clock(req.startTime).None? ==> r == Err(InvalidStartTime)
    ensures (layouts.date(req.date).Some? && layouts.clock(req.startTime).Some?
             && layouts.clock(req.endTime).None?) ==> r == Err(InvalidEndTime)
    ensures (layouts.date(req.date).Some? && layouts.clock(req.startTime).Some?
             && layouts.clock(req.endTime).Some?) ==> r.Ok?
    ensures r.Ok? ==>
      && Some(r.value.date) == layouts.date(req.date)
      && Some(r.value.startTime) == layouts.clock(req.startTime)
      && Some(r.value.endTime) == layouts.clock(req.endTime)
  {
    match layouts.date(req.date)
    case None => Err(InvalidDate)
    case Some(date) =>
      match layouts.clock(req.startTime)
      case None => Err(InvalidStartTime)
      case Some(start) =>
        match layouts.clock(req.endTime)
        case None => Err(InvalidEndTime)
        case Some(end) => Ok(Slot(date, start, end))
  }

  /** Creating a reservation: required fields, then the date and times, then the room,
      then the player, then the clash check; only then is the booking added. */
  function CreateReservation(
    b: Book, reg: Rooms.Registry, players: set<nat>, layouts: Layouts, req: ReservationRequest, storeFails: bool)
    : (k: Booked)
    ensures !FieldsPresent(req) ==> k.reply.Err? && k.reply.error.InvalidInput? && k.after == b
    ensures FieldsPresent(req) && ParseSlot(layouts, req).Err? ==>
      k.reply == Err(ParseSlot(layouts, req).error) && k.after == b
    ensures FieldsPresent(req) && ParseSlot(layouts, req).Ok? && req.roomId !in reg.rooms ==>
      k.reply == Err(RoomNotFound) && k.after == b
    ensures FieldsPresent(req) && ParseSlot(layouts, req).Ok? && req.roomId in reg.rooms
            && req.playerId !in players ==>
      k.reply == Err(PlayerNotFound) && k.after == b
    ensures FieldsPresent(req) && ParseSlot(layouts, req).Ok? && req.roomId in reg.rooms
            && req.playerId in players && HasConflict(b, req.roomId, ParseSlot(layouts, req).value) ==>
      k.reply == Err(ReservationConflict) && k.after == b
    ensures k.reply.Err? ==> k.after == b
    ensures k.reply.Ok? <==>
      && FieldsPresent(req) && ParseSlot(layouts, req).Ok? && req.roomId in reg.rooms
      && req.playerId in players && !HasConflict(b, req.roomId, ParseSlot(layouts, req).value) && !storeFails
    ensures k.reply.Ok? ==>
      var r := k.reply.value;
      var slot := ParseSlot(layouts, req).value;
      && k.after == Book(b.reservations + [r], b.nextId + 1)
      && r.id == b.nextId && r.roomId == req.roomId && r.playerId == req.playerId
      && r.date == slot.date && r.startTime == slot.startTime && r.endTime == slot.endTime
      && forall i :: 0 <= i < |b.reservations| ==> !ConflictsWith(b.reservations[i], r.roomId, slot)
  {
    if !FieldsPresent(req) then Booked(Err(InvalidInput("reservation")), b)
    else match ParseSlot(layouts, req)
      case Err(e) => Booked(Err(e), b)
      case Ok(slot) =>
        if req.roomId !in reg.rooms then Booked(Err(RoomNotFound), b)
        else if req.playerId !in players then Booked(Err(PlayerNotFound), b)
        else if HasConflict(b, req.roomId, slot) then Booked(Err(ReservationConflict), b)
        else if storeFails then Booked(Err(StoreFailure("create reservation")), b)
        else
          var r := Reservation(b.nextId, req.roomId, req.playerId, slot.date, slot.startTime, slot.endTime);
          Booked(Ok(r), Book(b.reservations + [r], b.nextId + 1))
  }

  /** The listing's filters: a room id and a date, each applied only when given. */
  predicate Matches(r: Reservation, room: Option<nat>, date: Option<Date>) {
    (room.None? || r.roomId == room.value) && (date.None? || r.date == date.value)
  }

  function MatchingReservations(b: Book, room: Option<nat>, date: Option<Date>): seq<Reservation> {
    Queries.Select(b.reservations, r => Matches(r, room, date))
  }

  /** Listing reservations: the limit text (ten when absent) must read as an integer;
      the rows matching the filters are returned up to the limit. */
  function ListReservations(b: Book, room: Option<nat>, date: Option<Date>, limit: Option<string>)
    : (r: Result<seq<Reservation>>)
    ensures r.Err? <==> Decimal.ParseInt(limit.GetOr(DefaultLimit)).None?
    ensures r.Err? ==> r.error == InvalidLimit
    ensures limit.None? ==> r.Ok? && |r.value| <= 10
    ensures r.Ok? ==> forall x :: x in r.value ==> x in b.reservations && Matches(x, room, date)
    ensures r.Ok? && Decimal.ParseInt(limit.GetOr(DefaultLimit)).value >= 0 ==>
      |r.value| <= Decimal.ParseInt(limit.GetOr(DefaultLimit)).value
    ensures (r.Ok? &&
      var n := Decimal.ParseInt(limit.GetOr(DefaultLimit)).value;
      0 <= n < |MatchingReservations(b, room, date)|) ==>
      |r.value| == Decimal.ParseInt(limit.GetOr(DefaultLimit)).value
    ensures r.Ok? ==> r.value <= MatchingReservations(b, room, date)
    ensures (r.Ok? &&
      var n := Decimal.ParseInt(limit.GetOr(DefaultLimit)).value;
      n < 0 || |MatchingReservations(b, room, date)| <= n) ==>
      forall x :: x in b.reservations && Matches(x, room, date) ==> x in r.value
  {
    DefaultLimitReads();
    match Decimal.ParseInt(limit.GetOr(DefaultLimit))
    case None => Err(InvalidLimit)
    case Some(n) =>
      var matching := MatchingReservations(b, room, date);
      var listed := Queries.Limit(matching, n);
      assert forall x :: x in listed ==> x in matching;
      Ok(listed)
  }

  lemma DefaultLimitReads()
    ensures Decimal.ParseInt(DefaultLimit) == Some(10)
  {
    assert DefaultLimit == Decimal.IntToString(10);
    Decimal.ParseIntOfIntToString(10);
  }

  /** The clash rule is closed-interval intersection, except that a booking exactly
      reversed onto the request (s == end and e == start) does not clash. */
  lemma OverlapsCharacterised(s: int, e: int, start: int, end: int)
    ensures Overlaps(s, e, start, end) <==> s <= end && start <= e && !(s == end && e == start)
  {
  }

  /** Back-to-back bookings clash: an existing booking ending when the new one starts. */
  lemma BackToBackClashes(s: int, e: int, start: int, end: int)
    requires e == start && s < end
    ensures Overlaps(s, e, start, end)
  {
  }

  /** The clash rule reads the same from either booking's side. */
  lemma OverlapsSymmetric(s: int, e: int, start: int, end: int)
    ensures Overlaps(s, e, start, end) <==> Overlaps(start, end, s, e)
  {
  }

  /** Bookings of another room or another date never clash. */
  lemma OtherRoomOrDateNeverClashes(r: Reservation, roomId: nat, slot: Slot)
    requires r.roomId != roomId || r.date != slot.date
    ensures !ConflictsWith(r, roomId, slot)
  {
  }

  /** Creating reservations keeps the book free of clashing pairs. */
  lemma CreateKeepsNoDoubleBooking(
    b: Book, reg: Rooms.Registry, players: set<nat>, layouts: Layouts, req: ReservationRequest, storeFails: bool)
    requires NoDoubleBooking(b)
    ensures NoDoubleBooking(CreateReservation(b, reg, players, layouts, req, storeFails).after)
  {
  }
}

=== FILE: results.dfy ===
/** Outcomes shared by every handler: an optional value, and a result that is
    either a value or one of the errors the handlers answer with. HTTP status
    codes are not modelled; each error kind stands for one distinct response. */
module Results {

  datatype Option<+T> = None | Some(value: T) {

    /** The carried value, or `default` when there is none (a missing row read as a default). */
    function GetOr(default: T): T {
      match this
      case Some(v) => v
      case None => default
    }
  }

  /** The distinct rejections the handlers produce. */
  datatype Error =
    | InvalidInput(field: string)   // a `binding:"required"` (or `gt`, `eq`) rule failed
    | PlayerNotFound
    | RoomNotFound
    | NotFound                      // a lookup by id found no row
    | CooldownActive(wait: int)     // nanoseconds still to wait
    | StoreFailure(what: string)    // a write was refused by the store; the transaction rolled back
    | InvalidPaymentMethod
    | InvalidDate
    | InvalidStartTime
    | InvalidEndTime
    | ReservationConflict
    | DuplicateRoomName
    | InvalidLimit
    | PlayerIdRequired
    | ActionRequired
    | InvalidAction

  datatype Result<+T> = Ok(value: T) | Err(error: Error)
}

=== FILE: room.dfy ===
/** The room registry: rooms with unique names, created `available`, updated in
    name and description only, deleted by id. */
module Rooms {
  import opened Results

  /** The status every new room gets. */
  const DefaultStatus: string := "available"

  datatype Room = Room(id: nat, name: string, description: string, status: string)

  /** The room rows by id, and the id the next row gets. */
  datatype Registry = Registry(rooms: map<nat, Room>, nextId: nat)

  datatype RoomRequest = RoomRequest(name: string, description: string)

  datatype Changed = Changed(reply: Result<Room>, after: Registry)

  datatype Removed = Removed(reply: Result<()>, after: Registry)

  /** Some room other than `except` already has this name. */
  predicate NameTakenBy(reg: Registry, name: string, except: Option<nat>) {
    exists id :: id in reg.rooms && reg.rooms[id].name == name && Some(id) != except
  }

  /** Rows are keyed by their own id below the next id, and no two rooms share a name
      (the unique index on the name column). */
  predicate Valid(reg: Registry) {
    && (forall id :: id in reg.rooms ==> reg.rooms[id].id == id && id < reg.nextId)
    && (forall a, b :: a in reg.rooms && b in reg.rooms && a != b ==> reg.rooms[a].name != reg.rooms[b].name)
  }

  /** Creating a room: a name is required and must not be taken. */
  function CreateRoom(reg: Registry, req: RoomRequest, storeFails: bool): (c: Changed)
    ensures req.name == "" ==> c.reply.Err? && c.reply.error.InvalidInput? && c.after == reg
    ensures req.name != "" && NameTakenBy(reg, req.name, None) ==>
      c.reply == Err(DuplicateRoomName) && c.after == reg
    ensures c.reply.Err? ==> c.after == reg
    ensures c.reply.Ok? <==> req.name != "" && !NameTakenBy(reg, req.name, None) && !storeFails
    ensures c.reply.Ok? ==>
      var room := c.reply.value;
      && room.id == reg.nextId
      && room.name == req.name && room.description == req.description
      && room.status == DefaultStatus
      && c.after == Registry(reg.rooms[room.id := room], reg.nextId + 1)
  {
    if req.name == "" then Changed(Err(InvalidInput("name")), reg)
    else if NameTakenBy(reg, req.name, None) then Changed(Err(DuplicateRoomName), reg)
    else if storeFails then Changed(Err(StoreFailure("create room")), reg)
    else
      var room := Room(reg.nextId, req.name, req.description, DefaultStatus);
      Changed(Ok(room), Registry(reg.rooms[room.id := room], reg.nextId + 1))
  }

  function GetRoom(reg: Registry, id: nat): (r: Result<Room>)
    ensures r.Ok? <==> id in reg.rooms
    ensures r.Ok? ==> r.value == reg.rooms[id]
    ensures r.Err? ==> r.error == NotFound
  {
    if id in reg.rooms then Ok(reg.rooms[id]) else Err(NotFound)
  }

  /** Updating a room: the room must exist and a name is required. Only the name and
      description change; saving a name another room holds violates the unique index. */
  function UpdateRoom(reg: Registry, id: nat, req: RoomRequest, storeFails: bool): (c: Changed)
    ensures id !in reg.rooms ==> c.reply == Err(NotFound) && c.after == reg
    ensures id in reg.rooms && req.name == "" ==> c.reply.Err? && c.reply.error.InvalidInput? && c.after == reg
    ensures c.reply.Err? ==> c.after == reg
    ensures c.reply.Ok? <==>
      id in reg.rooms && req.name != "" && !NameTakenBy(reg, req.name, Some(id)) && !storeFails
    ensures c.reply.Ok? ==>
      var room := c.reply.value;
      && room.id == reg.rooms[id].id
      && room.status == reg.rooms[id].status
      && room.name == req.name && room.description == req.description
      && c.after == Registry(reg.rooms[id := room], reg.nextId)
  {
    if id !in reg.rooms then Changed(Err(NotFound), reg)
    else if req.name == "" then Changed(Err(InvalidInput("name")), reg)
    else
      var room := reg.rooms[id].(name := req.name, description := req.description);
      if storeFails || NameTakenBy(reg, req.name, Some(id)) then Changed(Err(StoreFailure("update room")), reg)
      else Changed(Ok(room), Registry(reg.rooms[id := room], reg.nextId))
  }

  /** Deleting a room by id; deleting an absent id is not an error. */
  function DeleteRoom(reg: Registry, id: nat, storeFails: bool): (c: Removed)
    ensures storeFails ==> c.reply.Err? && c.after == reg
    ensures !storeFails ==> c.reply.Ok?
    ensures c.reply.Ok? ==>
      && c.after.rooms.Keys == reg.rooms.Keys - {id}
      && (forall k :: k in c.after.rooms ==> c.after.rooms[k] == reg.rooms[k])
      && c.after.nextId == reg.nextId
  {
    if storeFails then Removed(Err(StoreFailure("delete room")), reg)
    else Removed(Ok(()), Registry(reg.rooms - {id}, reg.nextId))
  }

  /** Listing every room. */
  function ListRooms(reg: Registry): (rs: set<Room>)
    ensures forall id :: id in reg.rooms ==> reg.rooms[id] in rs
    ensures forall r :: r in rs ==> exists id :: id in reg.rooms && reg.rooms[id] == r
  {
    set id | id in reg.rooms :: reg.rooms[id]
  }

  /** Every registry operation keeps room names unique. */
  lemma OperationsKeepValid(reg: Registry, id: nat, req: RoomRequest, storeFails: bool)
    requires Valid(reg)
    ensures Valid(CreateRoom(reg, req, storeFails).after)
    ensures Valid(UpdateRoom(reg, id, req, storeFails).after)
    ensures Valid(DeleteRoom(reg, id, storeFails).after)
  {
  }

  /** Reading a room back after each operation: a created or updated room is found
      as stored, and a deleted one is gone. */
  lemma GetAfterChange(reg: Registry, id: nat, req: RoomRequest)
    ensures var c := CreateRoom(reg, req, false);
      c.reply.Ok? ==> GetRoom(c.after, c.reply.value.id) == Ok(c.reply.value)
    ensures var u := UpdateRoom(reg, id, req, false);
      u.reply.Ok? ==> GetRoom(u.after, id) == Ok(u.reply.value)
    ensures GetRoom(DeleteRoom(reg, id, false).after, id) == Err(NotFound)
  {
  }
}
